=== FILE: README.md ===
# Album art for `<img>` slots — a Dafny model

`js/album-art.js` decorates `<img data-artist data-album>` elements with album covers from the
last.fm `album.getinfo` API. For each slot it resolves the album's metadata through a
localStorage cache (`get_lastfm_entry`), picks the image variant whose size tag suits the slot's
larger dimension, binds its URL and a title, reports failures on the element's `data-error`, and
on an image load error evicts the cache entry and retries.

This project models that core as pure functions over immutable data:

- `wrappers.dfy` — `Option` and `Result`.
- `cache_key.dfy` (`CacheKey`) — `make_key` (album, newline, artist) and its inverse `SplitKey` for albums without a newline.
- `metadata.dfy` (`Metadata`) — `get_lastfm_entry` as `Resolve`, threading a store
  `map<string, Stored>` and taking the network as an oracle `(artist, album) -> Response`, where a
  response is an album, an API error payload, or a transport error. A stored value is either a
  parsed entry or `Unparsable`, which stands for text whose `JSON.parse` throws or gives a falsy
  value; like a missing key, it is a miss.
- `size_selection.dfy` (`SizeSelection`) — `Math.max(width, height)`, the threshold chain giving
  `small | medium | large | extralarge | mega`, and the find-or-last variant choice.
- `binder.dfy` (`Binder`) — one `fetch_album_art` attempt (`Attempt`), the values it throws, and
  the catch block that passes `"Image unavailable"` through and prefixes everything else with
  `"Image fetch failed: "`.
- `listener_slot.dfy` (`ListenerSlot`) — the retry behaviour as the source writes it. Every
  successful attempt registers one more `error` listener capturing its own arguments. A load
  error fires every listener registered at that moment, in order. A first-attempt listener
  re-invokes with artist and album swapped and drops the result.
- `retry_machine.dfy` (`RetryMachine`) — the retry policy the source evidently intends, as an
  explicit state machine `Initial → Retrying → Failed` with at most two attempts. It uses the
  corrected error report `Binder.FailureMessage`, which differs from the source's catch block in
  two ways. An API error payload is reported rather than lost (see Findings). The sentinel is
  recognised by its kind, an empty URL, and not by its text. As written, a transport error
  whose message happens to be "Image unavailable" also passes through without the prefix; the
  corrected report prefixes it (`Binder.TransportSentinelDiffers`).

Each `fetch_album_art` call is modelled as running to completion before the next event; the
network, element dimensions and load-error events are inputs.

Behaviour of `js/album-art.js` that the model keeps as it is:
- the cache key is `album + "\n" + artist`, with the album first;
- every failure except the sentinel is reported with the prefix `"Image fetch failed: "`;
- the retry at line 96 swaps artist and album (see Findings);
- the element's width and height are read afresh on every call (line 69), so each load error carries the size the element has at that moment.

## Model

| member | source | states |
|---|---|---|
| CacheKey.MakeKey | js/album-art.js:10-13 | the key is one character longer than album and artist together, and for an album without a newline its first newline sits right after the album |
| CacheKey.SplitKey | js/album-art.js:10-13 | reads a key back into (artist, album) at its first newline, halves that rebuild the key and an album without a newline; absent exactly when the key has no newline |
| CacheKey.SplitMakeKey | js/album-art.js:10-13 | splitting `make_key(artist, album)` gives back (artist, album) whenever the album has no newline |
| CacheKey.MakeKeyInjective | js/album-art.js:10-13 | the key is unique per query, as the comment claims, provided neither album contains a newline (artists may) |
| CacheKey.MakeKeyCollides | js/album-art.js:10-13 | without that proviso two different queries share one key |
| Metadata.Cached | js/album-art.js:18-27 | a lookup hits exactly when the key is present and its value parses to an entry; missing or unparsable values are misses |
| Metadata.Project | js/album-art.js:47-51 | the cached entry keeps the response's name, artist and image list unchanged: rebuilding the album from it gives the response back |
| Metadata.Resolve | js/album-art.js:17-59 | a request is made exactly on a miss; a failed resolution leaves the store as it was; no key other than the query's key ever changes |
| Metadata.ResolveHit | js/album-art.js:18-29 | a hit returns the stored entry unchanged, with no request and the store untouched |
| Metadata.ResolveMissAlbum | js/album-art.js:40-55 | on a miss with an album response the result is its `{name, artist, image}` projection, and the store maps the key to exactly that entry |
| Metadata.ResolveMissError | js/album-art.js:40-45 | on a miss with an error payload or a transport error, resolution fails with it and the store is unchanged |
| Metadata.ResolveTwiceHits | js/album-art.js:18-55 | a second resolution right after a successful one makes no request, returns the same entry and changes nothing |
| SizeSelection.Measure | js/album-art.js:69 | the measure is the larger of width and height |
| SizeSelection.LabelFor | js/album-art.js:68-81 | the chosen tag is the smallest one whose threshold (25, 48, 130, 225, unbounded) the measure fits |
| SizeSelection.LabelForMonotone | js/album-art.js:68-81 | a larger slot never gets a smaller tag |
| SizeSelection.NameInjective | js/album-art.js:73-83 | distinct tags have distinct size strings, so a `size` match picks one tag |
| SizeSelection.FindFirst | js/album-art.js:83 | `find` returns the first variant whose size matches, and none only when no variant matches |
| SizeSelection.SelectIndex | js/album-art.js:82-83 | for a non-empty list: the first variant tagged with the label if any is, otherwise the last one; never fails |
| SizeSelection.SelectVariant | js/album-art.js:83 | the chosen variant is one of the entry's variants |
| Binder.Title | js/album-art.js:88 | the title is "Album art for ", then the entry's name, then " by ", then the entry's artist |
| Binder.Attempt | js/album-art.js:62-104 | the attempt touches the store only through resolution; a bound URL is never empty; it fails with a resolution error exactly when resolution fails, and then with that resolution's own error |
| Binder.AttemptBindsSelectedVariant | js/album-art.js:83-103 | with a resolved non-empty entry the src is the selected variant's URL and the title is "Album art for <name> by <artist>" from the resolved entry; an empty URL fails with the sentinel |
| Binder.ThrownAsWritten | js/album-art.js:40-103 | the source throws a bare value, not an Error, exactly for an API error payload (line 44); a rejected fetch or `json()` (lines 40-41) is thrown as an Error with its own message; it throws the sentinel Error for an empty URL, and for a transport error that happens to carry that text |
| Binder.Rejection | js/album-art.js:105-110 | the rejection is exactly "Image unavailable" only for the sentinel Error; any other Error becomes the prefix followed by its message, and a bare thrown value, which has no `.message`, becomes "Image fetch failed: undefined" |
| Binder.FailureMessage | js/album-art.js:105-110 | corrected report: the sentinel message exactly for an unavailable URL; every other failure starts with the prefix |
| Binder.UpstreamMessageLost | js/album-art.js:43-44 | as written, every API error payload is reported as "Image fetch failed: undefined" |
| Binder.FailureMessageKeepsCause | js/album-art.js:105-110 | two equal corrected reports come from failures with the same cause text |
| Binder.FailureMessageMatchesSource | js/album-art.js:105-110 | apart from API error payloads and a transport error whose text is the sentinel, the corrected report equals the source's |
| Binder.TransportSentinelDiffers | js/album-art.js:106-108 | a transport error whose text is "Image unavailable" passes through unprefixed as written, but is prefixed by the corrected report |
| ListenerSlot.FetchAlbumArt | js/album-art.js:62-112 | each call is one attempt; success sets `src` and `title` from the binding and registers exactly one listener capturing the call's arguments; a rejection leaves the element as it was and carries the catch block's message for the failure |
| ListenerSlot.Load | js/album-art.js:116-121 | after the entry point the slot is either armed with one new listener or shows an error, and that error is the call's rejection message |
| ListenerSlot.UnavailableShowsSentinel | js/album-art.js:102-108 | an empty URL leaves `data-error` exactly "Image unavailable", without a prefix |
| ListenerSlot.LoadError | js/album-art.js:90-101 | a load error fires the listeners registered at that moment: none is ever removed, each adds at most one, any retry listener leaves the terminal message, and the new size is the one read |
| ListenerSlot.Fire | js/album-art.js:90-101 | a retry listener evicts its key and records the terminal message; a first-attempt listener makes one more attempt and never touches `data-error` |
| ListenerSlot.FireEvicts | js/album-art.js:90-92 | a listener's key is absent after it fires, unless the swapped retry rewrote the very same key |
| ListenerSlot.SwappedRetryServesStaleEntry | js/album-art.js:94-96 | the retry reads the swapped key: an entry cached there is served again without a request, and the new listener captures swapped arguments |
| ListenerSlot.RetryFailureNotSurfaced | js/album-art.js:94-96 | a failing retry leaves `data-error` unchanged and arms nothing |
| ListenerSlot.RunShape | js/album-art.js:90-101 | after the first load and n load errors the slot holds the first listener plus n retry listeners and n + 1 attempts have run |
| ListenerSlot.AttemptsUnbounded | js/album-art.js:90-101 | as written, n load errors cause n + 1 attempts, so the retry is not bounded |
| RetryMachine.Bind | js/album-art.js:62-110 | one attempt with its failure caught: bound and armed on success, otherwise Failed with the corrected report while the element keeps its previous binding |
| RetryMachine.Start | js/album-art.js:116-120 | the first attempt leaves a valid slot with one attempt and the store as resolution left it; the slot is armed exactly when the attempt binds, and otherwise shows the failure's report |
| RetryMachine.UnavailableShowsSentinel | js/album-art.js:102-108 | an empty URL shows exactly "Image unavailable" on the slot |
| RetryMachine.OnLoadError | js/album-art.js:90-100 | a load error never moves a slot back a phase and a failed slot ignores it; an armed slot makes one more attempt; a retrying slot's key is evicted and it ends Failed with "Failed to load image source after retry", with no further attempt |
| RetryMachine.SecondLoadErrorFails | js/album-art.js:97-99 | two load errors on a bound slot whose retry bound end in Failed with the terminal message after exactly two attempts, the key evicted |
| RetryMachine.OnLoadErrorValid | js/album-art.js:90-100 | every load error keeps the slot invariant |
| RetryMachine.AtMostTwoAttempts | js/album-art.js:93-100 | after any number of load errors a slot is valid (so a stopped slot shows an error) and has made at most two attempts |
| RetryMachine.FailedIsFinal | js/album-art.js:97-100 | a failed slot stays as it is under any further load errors |
| RetryMachine.RetryRefetches | js/album-art.js:91-96 | the retry evicts and re-requests the same query; the key is cached again exactly when the network answers with an album, and the new title comes from that entry |
| RetryMachine.RetryFailureSurfaced | js/album-art.js:94-99 | a failed retry ends in Failed with its report on the slot, the element still showing the first attempt's image |

## Findings

| source | as written | input that shows it | evidently intended | confidence | as-written member | corrected member |
|---|---|---|---|---|---|---|
| js/album-art.js:96 | the retry calls `fetch_album_art(album, artist, img, true)` | artist "A", album "B", an entry cached under the key of ("B", "A"): the retry serves it without a request | retry with the same artist and album | high; not executed | ListenerSlot.SwappedRetryServesStaleEntry | RetryMachine.RetryRefetches |
| js/album-art.js:90-101 | each successful attempt adds a new `error` listener and the first one is never removed | a network that always answers and three load errors: four attempts | one retry only ("so we don't recurse forever", line 95) | high; not executed | ListenerSlot.AttemptsUnbounded | RetryMachine.AtMostTwoAttempts |
| js/album-art.js:44 | `throw lastfm.error` throws the payload itself, which has no `message` | response `{error: 6, message: "Album not found"}`: `data-error` is "Image fetch failed: undefined" | report the upstream error payload | medium; not executed | Binder.UpstreamMessageLost | Binder.FailureMessageKeepsCause |
| js/album-art.js:96 | the retry's promise has no `catch` | the retry's response is an error payload: `data-error` stays unset and nothing is armed | a failed retry shows its error on the slot | high; not executed | ListenerSlot.RetryFailureNotSurfaced | RetryMachine.RetryFailureSurfaced |

## Left out

- The API-key guard (lines 3-6): startup configuration. Without a key nothing is bound, and the model assumes one is present.
- DOM access (`document.currentScript`, `querySelectorAll`, `dataset`, `addEventListener`): the element's width and height at the first call and at each load error are inputs; `src`, `title`, `data-error` and the listener list are fields of the modelled element.
- `fetch`, `response.json()`, `URLSearchParams` and the endpoint URL: replaced by the oracle. A rejected fetch or JSON decode is `TransportError`.
- The oracle is a fixed function of (artist, album). A repeated request for the same query therefore gets the same response, so a network that answers the first request but fails only on the retry is not modelled.
- `JSON.parse` / `JSON.stringify` and real localStorage (origin scope, quota): the store is a map. A written entry reads back as the same entry. A `setItem` that throws (quota exceeded) would reject the call with the prefixed message; that path is not modelled.
- `console.info`: logging only.
- Asynchronous interleaving: each call runs to completion. In the source the cache read of a re-invocation happens before later listeners fire, but its write happens after.
- Metadata.Resolve: a cached value that parses to some truthy non-entry (a number, say) is treated like any other entry. In the source it is returned and the attempt then throws a TypeError.
- Binder.Attempt: a response without an `image` field is treated as an empty list. The source's TypeError for that case reads `'find'`, not `'#text'`. `MissingImageMessage` uses the V8 engine's wording, and other engines word it differently.
- A variant without `#text` is modelled as one whose URL is the empty string. Both are falsy at line 85.

=== FILE: binder.dfy ===
/** One run of `fetch_album_art`: resolve the entry, pick a variant for the slot,
    bind its URL and title, and turn every failure into the message the caller sees. */
module Binder {
  import opened Wrappers
  import opened CacheKey
  import opened Metadata
  import opened SizeSelection

  /** The sentinel message, passed to the caller without a prefix. */
  const UnavailableMessage: string := "Image unavailable"

  /** The prefix put in front of every other failure's message. */
  const FetchFailedPrefix: string := "Image fetch failed: "

  /** The terminal message an exhausted retry writes to `data-error`. */
  const RetryExhaustedMessage: string := "Failed to load image source after retry"

  /** The engine's TypeError text for reading `#text` of `undefined`, which is what an empty
      image list leads to (V8 wording). */
  const MissingImageMessage: string := "Cannot read properties of undefined (reading '#text')"

  /** Why one attempt did not bind an image. */
  datatype Failure =
    | ResolveFailed(cause: ResolveError)  // get_lastfm_entry rejected
    | NoImages                            // the entry's image list is empty
    | Unavailable                         // the selected variant has an empty URL

  /** What a successful attempt writes to the `<img>` element. */
  datatype Binding = Binding(src: string, title: string)

  /** The outcome of one attempt, the store after it, and whether it hit the network. */
  datatype AttemptResult = AttemptResult(outcome: Result<Binding, Failure>, store: Store, fetched: bool)

  /** The tooltip naming the album and artist as the resolved entry spells them. */
  function Title(e: Entry): (t: string)
    ensures |t| == |"Album art for "| + |e.name| + |" by "| + |e.artist|
    ensures t[..|"Album art for "|] == "Album art for "
    ensures t[|"Album art for "|..|"Album art for "| + |e.name|] == e.name
    ensures t[|t| - |e.artist|..] == e.artist
  {
    "Album art for " + e.name + " by " + e.artist
  }

  /** The try-block of `fetch_album_art(artist, album, img, is_retry)` for a `width` by `height` slot. */
  function Attempt(store: Store, oracle: Oracle, width: nat, height: nat, artist: string, album: string): (a: AttemptResult)
    ensures a.store == Resolve(store, oracle, artist, album).store
    ensures a.fetched == Resolve(store, oracle, artist, album).fetched
    ensures a.outcome.Ok? ==> a.outcome.value.src != ""
    ensures (a.outcome.Err? && a.outcome.error.ResolveFailed?) <==> Resolve(store, oracle, artist, album).result.Err?
    ensures Resolve(store, oracle, artist, album).result.Err? ==>
              a.outcome == Err(ResolveFailed(Resolve(store, oracle, artist, album).result.error))
  {
    var res := Resolve(store, oracle, artist, album);
    var outcome :=
      match res.result
      case Err(cause) => Err(ResolveFailed(cause))
      case Ok(e) =>
        if |e.images| == 0 then Err(NoImages)
        else
          var v := SelectVariant(e.images, LabelFor(Measure(width, height)));
          if v.url == "" then Err(Unavailable) else Ok(Binding(v.url, Title(e)));
    AttemptResult(outcome, res.store, res.fetched)
  }

  /** With a resolved, non-empty entry, the attempt binds the URL of the first variant tagged with
      the slot's size label (the last variant when none is), titled from the resolved entry; an
      empty URL there is the sentinel failure instead. */
  lemma AttemptBindsSelectedVariant(store: Store, oracle: Oracle, width: nat, height: nat, artist: string, album: string)
    requires Resolve(store, oracle, artist, album).result.Ok?
    requires |Resolve(store, oracle, artist, album).result.value.images| > 0
    ensures var e := Resolve(store, oracle, artist, album).result.value;
            var tag := LabelFor(Measure(width, height));
            var i := SelectIndex(e.images, tag);
            var a := Attempt(store, oracle, width, height, artist, album);
            && (e.images[i].url != "" ==> a.outcome == Ok(Binding(e.images[i].url, Title(e))))
            && (e.images[i].url == "" ==> a.outcome == Err(Unavailable))
  {
  }

  /** A JavaScript value thrown inside `fetch_album_art`: an `Error` with a message, or a bare
      primitive (what `throw lastfm.error` throws), whose `.message` is `undefined`. */
  datatype Thrown = ErrorObject(message: string) | Primitive(text: string)

  /** The value the source throws for each failure. */
  function ThrownAsWritten(f: Failure): (t: Thrown)
    ensures t.Primitive? <==> f.ResolveFailed? && f.cause.Upstream?
    ensures t == ErrorObject(UnavailableMessage) <==> f.Unavailable? || f == ResolveFailed(Transport(UnavailableMessage))
    ensures f.ResolveFailed? && f.cause.Transport? ==> t == ErrorObject(f.cause.message)
  {
    match f
    case ResolveFailed(Upstream(p)) => Primitive(p)
    case ResolveFailed(Transport(m)) => ErrorObject(m)
    case NoImages => ErrorObject(MissingImageMessage)
    case Unavailable => ErrorObject(UnavailableMessage)
  }

  /** `'' + error.message`: a primitive has no message, which concatenates as "undefined". */
  function MessageText(t: Thrown): string
  {
    match t
    case ErrorObject(m) => m
    case Primitive(_) => "undefined"
  }

  /** The catch-block of `fetch_album_art`: the message of the Error it rethrows. The sentinel
      passes through unchanged, and nothing else can produce it. */
  function Rejection(t: Thrown): (msg: string)
    ensures msg == UnavailableMessage <==> t == ErrorObject(UnavailableMessage)
    ensures t.ErrorObject? && msg != UnavailableMessage ==> msg == FetchFailedPrefix + t.message
    ensures t.Primitive? ==> msg == FetchFailedPrefix + "undefined"
  {
    if t.ErrorObject? && t.message == UnavailableMessage then t.message
    else
      assert |FetchFailedPrefix + MessageText(t)| > |UnavailableMessage|;
      FetchFailedPrefix + MessageText(t)
  }

  /** The rejection message of the source for a failure. */
  function RejectionAsWritten(f: Failure): string
  {
    Rejection(ThrownAsWritten(f))
  }

  /** The text a failure other than the sentinel is reported with. */
  function Cause(f: Failure): string
    requires !f.Unavailable?
  {
    match f
    case ResolveFailed(Upstream(p)) => p
    case ResolveFailed(Transport(m)) => m
    case NoImages => MissingImageMessage
  }

  /** The corrected report: the sentinel is recognised by its kind rather than its text, and an
      upstream error keeps its payload. */
  function FailureMessage(f: Failure): (msg: string)
    ensures msg == UnavailableMessage <==> f.Unavailable?
    ensures !f.Unavailable? ==> |msg| >= |FetchFailedPrefix| && msg[..|FetchFailedPrefix|] == FetchFailedPrefix
  {
    if f.Unavailable? then UnavailableMessage
    else
      assert |FetchFailedPrefix + Cause(f)| > |UnavailableMessage|;
      FetchFailedPrefix + Cause(f)
  }

  /** As written, every upstream error payload is reported with the same text: its content is lost. */
  lemma UpstreamMessageLost(payload: string)
    ensures RejectionAsWritten(ResolveFailed(Upstream(payload))) == "Image fetch failed: undefined"
  {
  }

  /** The corrected report determines the failure's cause: two reports that agree come from the same
      cause, and an upstream payload can be read back after the prefix. */
  lemma FailureMessageKeepsCause(f1: Failure, f2: Failure)
    requires !f1.Unavailable? && !f2.Unavailable?
    requires FailureMessage(f1) == FailureMessage(f2)
    ensures Cause(f1) == Cause(f2)
  {
    assert FailureMessage(f1)[|FetchFailedPrefix|..] == Cause(f1);
    assert FailureMessage(f2)[|FetchFailedPrefix|..] == Cause(f2);
  }

  /** Outside the upstream-error case and a transport error whose text happens to be the
      sentinel's, the corrected report is the one the source produces. */
  lemma FailureMessageMatchesSource(f: Failure)
    requires !(f.ResolveFailed? && f.cause.Upstream?)
    requires f != ResolveFailed(Transport(UnavailableMessage))
    ensures FailureMessage(f) == RejectionAsWritten(f)
  {
  }

  /** The corrected report recognises the sentinel by its kind, the source by its text: a transport
      error whose message is "Image unavailable" passes through unchanged as written, but is
      reported with the prefix once corrected. */
  lemma TransportSentinelDiffers()
    ensures RejectionAsWritten(ResolveFailed(Transport(UnavailableMessage))) == "Image unavailable"
    ensures FailureMessage(ResolveFailed(Transport(UnavailableMessage))) == "Image fetch failed: Image unavailable"
  {
  }
}

=== FILE: cache_key.dfy ===
/** The localStorage key under which one artist/album query is cached. */
module CacheKey {
  import opened Wrappers

  /** The separator written between the two halves of a key. */
  const Separator: char := '\n'

  /** `make_key(artist, album)`: the album first, a newline, then the artist. */
  function MakeKey(artist: string, album: string): (key: string)
    ensures |key| == |album| + 1 + |artist|
    ensures Separator !in album ==> IndexOf(key, Separator) == Some(|album|)
  {
    var key := album + [Separator] + artist;
    assert key[|album|] == Separator;
    assert key[..|album|] == album;
    key
  }

  /** The position of the first `c` in `s`, if there is one. */
  function IndexOf(s: string, c: char): (r: Option<nat>)
    ensures r.Some? ==> r.value < |s| && s[r.value] == c && c !in s[..r.value]
    ensures r.None? ==> c !in s
  {
    if |s| == 0 then None
    else if s[0] == c then Some(0)
    else match IndexOf(s[1..], c)
      case None => None
      case Some(i) =>
        assert s[..i + 1] == [s[0]] + s[1..][..i];
        Some(i + 1)
  }

  /** Reads a key back into its (artist, album) halves by splitting at the first separator. */
  function SplitKey(key: string): (r: Option<(string, string)>)
    ensures r.None? <==> Separator !in key
    ensures r.Some? ==> Separator !in r.value.1
    ensures r.Some? ==> key == MakeKey(r.value.0, r.value.1)
  {
    match IndexOf(key, Separator)
    case None => None
    case Some(i) => Some((key[i + 1..], key[..i]))
  }

  /** Splitting a key recovers the query it was made from, provided the album holds no newline. */
  lemma SplitMakeKey(artist: string, album: string)
    requires Separator !in album
    ensures SplitKey(MakeKey(artist, album)) == Some((artist, album))
  {
    var key := MakeKey(artist, album);
    assert key[..|album|] == album;
    assert key[|album| + 1..] == artist;
  }

  /** The key is unique per query whenever neither album contains a newline; artists may. */
  lemma MakeKeyInjective(artist1: string, album1: string, artist2: string, album2: string)
    requires Separator !in album1 && Separator !in album2
    requires MakeKey(artist1, album1) == MakeKey(artist2, album2)
    ensures artist1 == artist2 && album1 == album2
  {
    SplitMakeKey(artist1, album1);
    SplitMakeKey(artist2, album2);
  }

  /** Without that assumption two different queries share one key. */
  lemma MakeKeyCollides()
    ensures MakeKey("c", "a\nb") == MakeKey("b\nc", "a")
  {
  }
}

=== FILE: listener_slot.dfy ===
/** The `<img>` slot as the source drives it: every successful attempt registers a new
    `error` listener capturing its own arguments, a load error fires every registered listener
    in order, and a first-attempt listener re-invokes `fetch_album_art` with artist and album
    swapped and without handling its rejection. */
module ListenerSlot {
  import opened Wrappers
  import opened CacheKey
  import opened Metadata
  import opened SizeSelection
  import opened Binder

  /** One registered `error` listener: the arguments its closure captured. */
  datatype Listener = Listener(artist: string, album: string, isRetry: bool)

  /** The `<img>` element: its dimensions, `src`, `title`, `data-error`, its `error` listeners in
      registration order, and how many `fetch_album_art` calls have run for it. */
  datatype Img = Img(width: nat, height: nat, src: string, title: string, error: Option<string>,
                     listeners: seq<Listener>, attempts: nat)

  /** One `fetch_album_art` call run to completion: the store and element after it and the
      message its promise rejects with, if it does. */
  datatype Call = Call(store: Store, img: Img, rejection: Option<string>)

  /** The shared store and the slot's element. */
  datatype Page = Page(store: Store, img: Img)

  /** `fetch_album_art(artist, album, img, is_retry)`. */
  function FetchAlbumArt(store: Store, oracle: Oracle, img: Img, artist: string, album: string, isRetry: bool): (c: Call)
    ensures c.store == Resolve(store, oracle, artist, album).store
    ensures c.img.attempts == img.attempts + 1
    ensures c.img.error == img.error
    ensures c.rejection.None? ==> c.img.listeners == img.listeners + [Listener(artist, album, isRetry)]
    ensures c.rejection.Some? ==> c.img == img.(attempts := img.attempts + 1)
    ensures var a := Attempt(store, oracle, img.width, img.height, artist, album);
            && (c.rejection.None? <==> a.outcome.Ok?)
            && (a.outcome.Ok? ==> c.img.src == a.outcome.value.src && c.img.title == a.outcome.value.title)
            && (a.outcome.Err? ==> c.rejection == Some(RejectionAsWritten(a.outcome.error)))
  {
    var a := Attempt(store, oracle, img.width, img.height, artist, album);
    var counted := img.(attempts := img.attempts + 1);
    match a.outcome
    case Ok(b) =>
      Call(a.store, counted.(src := b.src, title := b.title,
                             listeners := img.listeners + [Listener(artist, album, isRetry)]), None)
    case Err(f) => Call(a.store, counted, Some(RejectionAsWritten(f)))
  }

  /** The page's entry point for one slot: `is_retry` is left undefined (falsy), and a rejection
      becomes the element's `data-error`. */
  function Load(store: Store, oracle: Oracle, img: Img, artist: string, album: string): (p: Page)
    ensures p.store == Resolve(store, oracle, artist, album).store
    ensures p.img.attempts == img.attempts + 1
    ensures |p.img.listeners| == |img.listeners| + 1 || p.img.error.Some?
    ensures |p.img.listeners| == |img.listeners| + 1 ==> p.img.error == img.error
    ensures var c := FetchAlbumArt(store, oracle, img, artist, album, false);
            c.rejection.Some? ==> p.img.error == c.rejection
  {
    var c := FetchAlbumArt(store, oracle, img, artist, album, false);
    match c.rejection
    case None => Page(c.store, c.img)
    case Some(m) => Page(c.store, c.img.(error := Some(m)))
  }

  /** An empty URL for the slot's size shows exactly the sentinel message on `data-error`. */
  lemma UnavailableShowsSentinel(store: Store, oracle: Oracle, img: Img, artist: string, album: string)
    requires Attempt(store, oracle, img.width, img.height, artist, album).outcome == Err(Unavailable)
    ensures Load(store, oracle, img, artist, album).img.error == Some("Image unavailable")
  {
  }

  /** One listener handling a load error: it evicts the key of the query it captured, then either
      re-invokes with the arguments swapped (dropping the result) or records the terminal error. */
  function Fire(store: Store, oracle: Oracle, img: Img, l: Listener): (p: Page)
    ensures l.isRetry ==> p == Page(store - {MakeKey(l.artist, l.album)}, img.(error := Some(RetryExhaustedMessage)))
    ensures !l.isRetry ==> p.img.error == img.error && p.img.attempts == img.attempts + 1
    ensures !l.isRetry ==> p.img.listeners == img.listeners || p.img.listeners == img.listeners + [Listener(l.album, l.artist, true)]
    ensures p.img.width == img.width && p.img.height == img.height
  {
    var evicted := store - {MakeKey(l.artist, l.album)};
    if l.isRetry then Page(evicted, img.(error := Some(RetryExhaustedMessage)))
    else
      var c := FetchAlbumArt(evicted, oracle, img, l.album, l.artist, true);
      Page(c.store, c.img)
  }

  /** Fires the listeners registered when the event was dispatched, in order; listeners added
      meanwhile wait for the next event. */
  function Dispatch(store: Store, oracle: Oracle, img: Img, pending: seq<Listener>): (p: Page)
    ensures |img.listeners| <= |p.img.listeners| <= |img.listeners| + |pending|
    ensures p.img.listeners[..|img.listeners|] == img.listeners
    ensures (exists i :: 0 <= i < |pending| && pending[i].isRetry) ==> p.img.error == Some(RetryExhaustedMessage)
    ensures (forall i :: 0 <= i < |pending| ==> !pending[i].isRetry) ==> p.img.error == img.error
    ensures p.img.width == img.width && p.img.height == img.height
    decreases |pending|
  {
    if |pending| == 0 then Page(store, img)
    else
      var p := Fire(store, oracle, img, pending[0]);
      Dispatch(p.store, oracle, p.img, pending[1..])
  }

  /** The image fails to load while the element is rendered at `size`: every listener registered
      at that moment fires once, in registration order, and every re-invocation reads that size. */
  function LoadError(page: Page, oracle: Oracle, size: Dimensions): (q: Page)
    ensures |page.img.listeners| <= |q.img.listeners| <= 2 * |page.img.listeners|
    ensures q.img.listeners[..|page.img.listeners|] == page.img.listeners
    ensures (exists i :: 0 <= i < |page.img.listeners| && page.img.listeners[i].isRetry) ==>
              q.img.error == Some(RetryExhaustedMessage)
    ensures q.img.width == size.width && q.img.height == size.height
  {
    Dispatch(page.store, oracle, page.img.(width := size.width, height := size.height), page.img.listeners)
  }

  /** Load errors in a row, the element rendered at `sizes[i]` during the `i`-th. */
  function Run(page: Page, oracle: Oracle, sizes: seq<Dimensions>): Page
    decreases |sizes|
  {
    if |sizes| == 0 then page
    else LoadError(Run(page, oracle, sizes[..|sizes| - 1]), oracle, sizes[|sizes| - 1])
  }

  /** Each listener evicts the key of the query it captured; the key can be back afterwards only
      if the swapped retry wrote it, that is only if the swapped key is the same key. */
  lemma FireEvicts(store: Store, oracle: Oracle, img: Img, l: Listener)
    ensures MakeKey(l.artist, l.album) in Fire(store, oracle, img, l).store ==>
              !l.isRetry && MakeKey(l.album, l.artist) == MakeKey(l.artist, l.album)
  {
    var evicted := store - {MakeKey(l.artist, l.album)};
    if !l.isRetry {
      var r := Resolve(evicted, oracle, l.album, l.artist);
      assert Fire(store, oracle, img, l).store == r.store;
    }
  }

  /** The first-attempt listener's retry reads the swapped key, not the one it evicted: a stale
      entry under the swapped key is served again without a request, and the listener it
      registers carries the swapped arguments. */
  lemma SwappedRetryServesStaleEntry(store: Store, oracle: Oracle, img: Img, l: Listener, stale: Entry)
    requires !l.isRetry && l.artist != l.album
    requires Separator !in l.artist && Separator !in l.album
    requires Cached(store, MakeKey(l.album, l.artist)) == Some(stale)
    ensures var evicted := store - {MakeKey(l.artist, l.album)};
            var p := Fire(store, oracle, img, l);
            && !Attempt(evicted, oracle, img.width, img.height, l.album, l.artist).fetched
            && p.store == evicted
            && Cached(p.store, MakeKey(l.album, l.artist)) == Some(stale)
            && (|p.img.listeners| > |img.listeners| ==>
                  p.img.listeners[|img.listeners|] == Listener(l.album, l.artist, true)
                  && p.img.title == Title(stale))
  {
    if MakeKey(l.album, l.artist) == MakeKey(l.artist, l.album) {
      MakeKeyInjective(l.album, l.artist, l.artist, l.album);
    }
    var evicted := store - {MakeKey(l.artist, l.album)};
    assert evicted[MakeKey(l.album, l.artist)] == Parsed(stale);
    ResolveHit(evicted, oracle, l.album, l.artist, stale);
  }

  /** A retry that fails leaves `data-error` as it was: its rejection is never caught. */
  lemma RetryFailureNotSurfaced(page: Page, oracle: Oracle, size: Dimensions, l: Listener)
    requires page.img.listeners == [l] && !l.isRetry
    requires Attempt(page.store - {MakeKey(l.artist, l.album)}, oracle, size.width, size.height,
                     l.album, l.artist).outcome.Err?
    ensures LoadError(page, oracle, size).img.error == page.img.error
    ensures LoadError(page, oracle, size).img.listeners == [l]
  {
    var img := page.img.(width := size.width, height := size.height);
    var p := Fire(page.store, oracle, img, l);
    assert [l][1..] == [];
    assert LoadError(page, oracle, size) == Dispatch(p.store, oracle, p.img, []);
  }

  /** An entry that attempts always bind: a non-empty image list with URLs everywhere. */
  predicate Healthy(e: Entry)
  {
    |e.images| > 0 && forall i :: 0 <= i < |e.images| ==> e.images[i].url != ""
  }

  /** A network that always answers with a healthy album. */
  ghost predicate HealthyOracle(oracle: Oracle)
  {
    forall artist, album :: oracle(artist, album).Album? && Healthy(Project(oracle(artist, album)))
  }

  /** Every parsed entry in the store is healthy. */
  ghost predicate HealthyStore(store: Store)
  {
    forall k :: k in store && store[k].Parsed? ==> Healthy(store[k].entry)
  }

  /** Under a healthy network and store, every attempt binds and the store stays healthy. */
  lemma HealthyAttempt(store: Store, oracle: Oracle, img: Img, artist: string, album: string, isRetry: bool)
    requires HealthyOracle(oracle) && HealthyStore(store)
    ensures FetchAlbumArt(store, oracle, img, artist, album, isRetry).rejection.None?
    ensures HealthyStore(FetchAlbumArt(store, oracle, img, artist, album, isRetry).store)
  {
    var r := Resolve(store, oracle, artist, album);
    var key := MakeKey(artist, album);
    if Cached(store, key).None? {
      assert Healthy(Project(oracle(artist, album)));
    } else {
      assert Healthy(Cached(store, key).value);
    }
    var e := r.result.value;
    var i := SelectIndex(e.images, LabelFor(Measure(img.width, img.height)));
    assert e.images[i].url != "";
  }

  /** Retry listeners only evict and record the terminal error: no attempt, no new listener. */
  lemma {:induction false} DispatchRetryListeners(store: Store, oracle: Oracle, img: Img, pending: seq<Listener>)
    requires forall i :: 0 <= i < |pending| ==> pending[i].isRetry
    requires HealthyStore(store)
    ensures var p := Dispatch(store, oracle, img, pending);
            && p.img.listeners == img.listeners
            && p.img.attempts == img.attempts
            && HealthyStore(p.store)
    decreases |pending|
  {
    if |pending| > 0 {
      var p := Fire(store, oracle, img, pending[0]);
      DispatchRetryListeners(p.store, oracle, p.img, pending[1..]);
    }
  }

  /** `k` copies of the retry listener that the swapped re-invocation registers. */
  function Retries(artist: string, album: string, k: nat): (s: seq<Listener>)
    ensures |s| == k
  {
    seq(k, _ => Listener(album, artist, true))
  }

  /** One load error on a slot holding the first listener and `k` retry listeners: the first
      re-invokes and registers one more retry listener, the others only evict. */
  lemma LoadErrorStep(page: Page, oracle: Oracle, size: Dimensions, artist: string, album: string, k: nat)
    requires HealthyOracle(oracle) && HealthyStore(page.store)
    requires page.img.listeners == [Listener(artist, album, false)] + Retries(artist, album, k)
    ensures var q := LoadError(page, oracle, size);
            && q.img.listeners == [Listener(artist, album, false)] + Retries(artist, album, k + 1)
            && q.img.attempts == page.img.attempts + 1
            && HealthyStore(q.store)
  {
    var first := Listener(artist, album, false);
    var rest := Retries(artist, album, k);
    var evicted := page.store - {MakeKey(artist, album)};
    assert HealthyStore(evicted);
    var img := page.img.(width := size.width, height := size.height);
    HealthyAttempt(evicted, oracle, img, album, artist, true);
    var p := Fire(page.store, oracle, img, first);
    assert p.img.listeners == [first] + rest + [Listener(album, artist, true)];
    assert page.img.listeners[1..] == rest;
    assert LoadError(page, oracle, size) == Dispatch(p.store, oracle, p.img, rest);
    DispatchRetryListeners(p.store, oracle, p.img, rest);
    assert rest + [Listener(album, artist, true)] == Retries(artist, album, k + 1);
  }

  /** After the first load and `n` load errors, whatever sizes the element is rendered at, the
      slot holds the first listener followed by `n` retry listeners, and `n + 1` attempts have run. */
  lemma {:induction false} RunShape(store: Store, oracle: Oracle, img: Img, artist: string, album: string, sizes: seq<Dimensions>)
    requires HealthyOracle(oracle) && HealthyStore(store)
    requires img.listeners == [] && img.attempts == 0
    ensures var p := Run(Load(store, oracle, img, artist, album), oracle, sizes);
            && p.img.listeners == [Listener(artist, album, false)] + Retries(artist, album, |sizes|)
            && p.img.attempts == |sizes| + 1
            && HealthyStore(p.store)
    decreases |sizes|
  {
    var n := |sizes|;
    if n == 0 {
      HealthyAttempt(store, oracle, img, artist, album, false);
      assert Retries(artist, album, 0) == [];
    } else {
      var earlier := sizes[..n - 1];
      RunShape(store, oracle, img, artist, album, earlier);
      var prev := Run(Load(store, oracle, img, artist, album), oracle, earlier);
      LoadErrorStep(prev, oracle, sizes[n - 1], artist, album, n - 1);
    }
  }

  /** The retry bound does not hold as written: with a network that always answers, `n` load
      errors cause `n + 1` attempts, because the first listener stays registered and re-invokes
      on every later error. */
  lemma AttemptsUnbounded(store: Store, oracle: Oracle, img: Img, artist: string, album: string, sizes: seq<Dimensions>)
    requires HealthyOracle(oracle) && HealthyStore(store)
    requires img.listeners == [] && img.attempts == 0
    ensures Run(Load(store, oracle, img, artist, album), oracle, sizes).img.attempts == |sizes| + 1
  {
    RunShape(store, oracle, img, artist, album, sizes);
  }
}

=== FILE: metadata.dfy ===
/** `get_lastfm_entry`: cache-or-fetch resolution of an artist/album query over
    localStorage (a map) and the last.fm album.getinfo endpoint (an oracle). */
module Metadata {
  import opened Wrappers
  import opened CacheKey

  /** One element of the API's `image` array: its `size` tag and its `#text` URL
      (an absent `#text` is the empty string). */
  datatype Variant = Variant(size: string, url: string)

  /** The cached projection `{name, artist, image}` of an album.getinfo response. */
  datatype Entry = Entry(name: string, artist: string, images: seq<Variant>)

  /** What one album.getinfo request yields. */
  datatype Response =
    | Album(name: string, artist: string, images: seq<Variant>)
    | ApiError(payload: string)
    | TransportError(message: string)

  /** A localStorage value as `JSON.parse` sees it: a parsed entry, or text that
      fails to parse or parses to a falsy value (`null`, `0`, `""`, `false`). */
  datatype Stored = Parsed(entry: Entry) | Unparsable

  /** localStorage: string keys to stored values. */
  type Store = map<string, Stored>

  /** The network, queried with (artist, album). */
  type Oracle = (string, string) -> Response

  /** Why a resolution failed: the response's `error` field, or a rejected fetch/json. */
  datatype ResolveError = Upstream(payload: string) | Transport(message: string)

  /** The result of one `get_lastfm_entry` call, the store after it, and whether it hit the network. */
  datatype Resolution = Resolution(result: Result<Entry, ResolveError>, store: Store, fetched: bool)

  /** The entry cached under `key`, if reading and parsing it yields a truthy value. */
  function Cached(store: Store, key: string): (r: Option<Entry>)
    ensures r.Some? <==> key in store && store[key].Parsed?
    ensures r.Some? ==> store[key] == Parsed(r.value)
  {
    if key in store then
      match store[key]
      case Parsed(e) => Some(e)
      case Unparsable => None
    else None
  }

  /** The entry built from a successful response: only name, artist and image are kept. */
  function Project(response: Response): (e: Entry)
    requires response.Album?
    ensures Album(e.name, e.artist, e.images) == response
  {
    Entry(response.name, response.artist, response.images)
  }

  /** `get_lastfm_entry(artist, album)`. */
  function Resolve(store: Store, oracle: Oracle, artist: string, album: string): (r: Resolution)
    ensures r.fetched <==> Cached(store, MakeKey(artist, album)).None?
    ensures r.result.Err? ==> r.fetched && r.store == store
    ensures forall k :: k != MakeKey(artist, album) ==>
              (k in r.store <==> k in store) && (k in store ==> r.store[k] == store[k])
  {
    var key := MakeKey(artist, album);
    match Cached(store, key)
    case Some(e) => Resolution(Ok(e), store, false)
    case None =>
      match oracle(artist, album)
      case ApiError(p) => Resolution(Err(Upstream(p)), store, true)
      case TransportError(m) => Resolution(Err(Transport(m)), store, true)
      case Album(name, art, images) =>
        var e := Entry(name, art, images);
        Resolution(Ok(e), store[key := Parsed(e)], true)
  }

  /** A cache hit returns the stored entry unchanged, without a request and without touching the store. */
  lemma ResolveHit(store: Store, oracle: Oracle, artist: string, album: string, e: Entry)
    requires MakeKey(artist, album) in store && store[MakeKey(artist, album)] == Parsed(e)
    ensures Resolve(store, oracle, artist, album) == Resolution(Ok(e), store, false)
  {
  }

  /** On a miss with an album response, the result is its projection, and the store maps the
      key to exactly that entry while every other key keeps its value. */
  lemma ResolveMissAlbum(store: Store, oracle: Oracle, artist: string, album: string)
    requires Cached(store, MakeKey(artist, album)).None?
    requires oracle(artist, album).Album?
    ensures var r := Resolve(store, oracle, artist, album);
            && r.fetched
            && r.result == Ok(Project(oracle(artist, album)))
            && r.store == store[MakeKey(artist, album) := Parsed(Project(oracle(artist, album)))]
  {
  }

  /** On a miss with an error response, resolution fails with that error and the store is unchanged. */
  lemma ResolveMissError(store: Store, oracle: Oracle, artist: string, album: string)
    requires Cached(store, MakeKey(artist, album)).None?
    requires !oracle(artist, album).Album?
    ensures var r := Resolve(store, oracle, artist, album);
            && r.fetched
            && r.store == store
            && (oracle(artist, album).ApiError? ==> r.result == Err(Upstream(oracle(artist, album).payload)))
            && (oracle(artist, album).TransportError? ==> r.result == Err(Transport(oracle(artist, album).message)))
  {
  }

  /** Resolving again straight after a successful resolution is a hit on the same entry:
      the second call makes no request and leaves the store as the first call left it. */
  lemma ResolveTwiceHits(store: Store, oracle: Oracle, artist: string, album: string)
    requires Resolve(store, oracle, artist, album).result.Ok?
    ensures var first := Resolve(store, oracle, artist, album);
            var second := Resolve(first.store, oracle, artist, album);
            && !second.fetched
            && second.result == first.result
            && second.store == first.store
  {
  }
}

=== FILE: retry_machine.dfy ===
/** The per-slot retry policy as the source evidently intends it, as an explicit state machine:
    a bound slot is armed once (Initial), a load error evicts the cache entry and retries once
    with the same artist and album (Retrying), and a second load error, or any failed attempt,
    ends in a visible error (Failed). */
module RetryMachine {
  import opened Wrappers
  import opened CacheKey
  import opened Metadata
  import opened SizeSelection
  import opened Binder

  /** Where a slot is in its lifecycle; `hasRetried` is `phase != Initial`. */
  datatype Phase = Initial | Retrying | Failed

  /** The slot's artist/album query. */
  datatype Query = Query(artist: string, album: string)

  /** A slot: its query, phase, the binding its element shows (that of the last successful
      attempt), its `data-error`, and the number of attempts made for it. */
  datatype Slot = Slot(query: Query, phase: Phase, binding: Option<Binding>, error: Option<string>, attempts: nat)

  /** The shared store and one slot. */
  datatype Page = Page(store: Store, slot: Slot)

  /** Phases in the order a slot goes through them. */
  function PhaseRank(phase: Phase): nat
  {
    match phase
    case Initial => 0
    case Retrying => 1
    case Failed => 2
  }

  /** The cache key of the slot's query. */
  function KeyOf(q: Query): string
  {
    MakeKey(q.artist, q.album)
  }

  /** The attempt for `query` from `store` with the element rendered at `size`. */
  function AttemptFor(store: Store, oracle: Oracle, query: Query, size: Dimensions): AttemptResult
  {
    Attempt(store, oracle, size.width, size.height, query.artist, query.album)
  }

  /** One attempt with its failure caught: bound and armed in phase `armed`, or failed with its
      report shown on the slot while the element keeps showing the `previous` binding. */
  function Bind(store: Store, oracle: Oracle, query: Query, size: Dimensions, previous: Option<Binding>,
                armed: Phase, attempts: nat): (p: Page)
    ensures p.store == AttemptFor(store, oracle, query, size).store
    ensures p.slot.query == query && p.slot.attempts == attempts
    ensures var a := AttemptFor(store, oracle, query, size);
            && (a.outcome.Ok? ==> p.slot.phase == armed && p.slot.binding == Some(a.outcome.value) && p.slot.error.None?)
            && (a.outcome.Err? ==>
                  p.slot.phase == Failed && p.slot.binding == previous && p.slot.error == Some(FailureMessage(a.outcome.error)))
  {
    var a := AttemptFor(store, oracle, query, size);
    match a.outcome
    case Ok(b) => Page(a.store, Slot(query, armed, Some(b), None, attempts))
    case Err(f) => Page(a.store, Slot(query, Failed, previous, Some(FailureMessage(f)), attempts))
  }

  /** The first attempt for a slot rendered at `size`. */
  function Start(store: Store, oracle: Oracle, query: Query, size: Dimensions): (p: Page)
    ensures Valid(p.slot) && p.slot.query == query && p.slot.attempts == 1
    ensures p.store == Resolve(store, oracle, query.artist, query.album).store
    ensures var a := AttemptFor(store, oracle, query, size);
            && (p.slot.phase == Initial <==> a.outcome.Ok?)
            && (a.outcome.Ok? ==> p.slot.binding == Some(a.outcome.value))
            && (a.outcome.Err? ==> p.slot.error == Some(FailureMessage(a.outcome.error)))
  {
    Bind(store, oracle, query, size, None, Initial, 1)
  }

  /** The slot's image fails to load while the element is rendered at `size`. */
  function OnLoadError(page: Page, oracle: Oracle, size: Dimensions): (q: Page)
    ensures q.slot.query == page.slot.query
    ensures PhaseRank(page.slot.phase) <= PhaseRank(q.slot.phase)
    ensures page.slot.phase == Failed ==> q == page
    ensures page.slot.phase == Retrying ==>
              && q.slot.phase == Failed
              && q.slot.error == Some(RetryExhaustedMessage)
              && q.slot.attempts == page.slot.attempts
              && q.store == page.store - {KeyOf(page.slot.query)}
    ensures page.slot.phase == Initial ==>
              && q.slot.phase != Initial
              && q.slot.attempts == page.slot.attempts + 1
  {
    var s := page.slot;
    var evicted := page.store - {KeyOf(s.query)};
    match s.phase
    case Initial => Bind(evicted, oracle, s.query, size, s.binding, Retrying, s.attempts + 1)
    case Retrying => Page(evicted, s.(phase := Failed, error := Some(RetryExhaustedMessage)))
    case Failed => page
  }

  /** Load errors in a row, the element rendered at `sizes[i]` during the `i`-th. */
  function Run(page: Page, oracle: Oracle, sizes: seq<Dimensions>): Page
    decreases |sizes|
  {
    if |sizes| == 0 then page
    else OnLoadError(Run(page, oracle, sizes[..|sizes| - 1]), oracle, sizes[|sizes| - 1])
  }

  /** The slot invariant: an armed slot is bound and shows no error, a retrying one has made
      exactly two attempts, and a failed one shows an error after one or two attempts. */
  predicate Valid(s: Slot)
  {
    match s.phase
    case Initial => s.attempts == 1 && s.binding.Some? && s.error.None?
    case Retrying => s.attempts == 2 && s.binding.Some? && s.error.None?
    case Failed => 1 <= s.attempts <= 2 && s.error.Some?
  }

  /** Every load error keeps the invariant. */
  lemma OnLoadErrorValid(page: Page, oracle: Oracle, size: Dimensions)
    requires Valid(page.slot)
    ensures Valid(OnLoadError(page, oracle, size).slot)
  {
  }

  /** However many load errors follow, at whatever sizes, a slot stays valid and never makes more
      than two attempts. */
  lemma {:induction false} AtMostTwoAttempts(store: Store, oracle: Oracle, query: Query, size: Dimensions, sizes: seq<Dimensions>)
    ensures var p := Run(Start(store, oracle, query, size), oracle, sizes);
            && Valid(p.slot)
            && p.slot.attempts <= 2
    decreases |sizes|
  {
    if |sizes| > 0 {
      var earlier := sizes[..|sizes| - 1];
      AtMostTwoAttempts(store, oracle, query, size, earlier);
      OnLoadErrorValid(Run(Start(store, oracle, query, size), oracle, earlier), oracle, sizes[|sizes| - 1]);
    }
  }

  /** The retried image failing too ends the slot with the terminal message: two load errors on a
      freshly bound slot leave it Failed after exactly two attempts. */
  lemma SecondLoadErrorFails(store: Store, oracle: Oracle, query: Query, size: Dimensions, first: Dimensions, second: Dimensions)
    requires Start(store, oracle, query, size).slot.phase == Initial
    requires OnLoadError(Start(store, oracle, query, size), oracle, first).slot.phase == Retrying
    ensures var p := Run(Start(store, oracle, query, size), oracle, [first, second]);
            && p.slot.phase == Failed
            && p.slot.error == Some(RetryExhaustedMessage)
            && p.slot.attempts == 2
            && KeyOf(query) !in p.store
  {
    var start := Start(store, oracle, query, size);
    assert [first, second][..1] == [first];
    assert [first][..0] == [];
    assert Run(start, oracle, [first]) == OnLoadError(start, oracle, first);
  }

  /** A failed slot stays as it is: no further attempt, store untouched. */
  lemma {:induction false} FailedIsFinal(page: Page, oracle: Oracle, sizes: seq<Dimensions>)
    requires page.slot.phase == Failed
    ensures Run(page, oracle, sizes) == page
    decreases |sizes|
  {
    if |sizes| > 0 {
      FailedIsFinal(page, oracle, sizes[..|sizes| - 1]);
    }
  }

  /** The retry keeps the slot's artist and album: it evicts their key, so it always asks the
      network for that same query; the key is cached again exactly when the network answered
      with an album, and when the retry binds, its title comes from that fresh entry. */
  lemma RetryRefetches(page: Page, oracle: Oracle, size: Dimensions)
    requires page.slot.phase == Initial
    ensures var query := page.slot.query;
            var evicted := page.store - {KeyOf(query)};
            var q := OnLoadError(page, oracle, size);
            && AttemptFor(evicted, oracle, query, size).fetched
            && (q.slot.phase == Retrying ==>
                  && oracle(query.artist, query.album).Album?
                  && q.store == evicted[KeyOf(query) := Parsed(Project(oracle(query.artist, query.album)))]
                  && q.slot.binding.value.title == Title(Project(oracle(query.artist, query.album))))
            && (KeyOf(query) in q.store <==> oracle(query.artist, query.album).Album?)
  {
    var query := page.slot.query;
    var evicted := page.store - {KeyOf(query)};
    assert Cached(evicted, KeyOf(query)).None?;
  }

  /** A retry that fails shows its report on the slot. */
  lemma RetryFailureSurfaced(page: Page, oracle: Oracle, size: Dimensions)
    requires page.slot.phase == Initial
    requires AttemptFor(page.store - {KeyOf(page.slot.query)}, oracle, page.slot.query, size).outcome.Err?
    ensures var f := AttemptFor(page.store - {KeyOf(page.slot.query)}, oracle, page.slot.query, size).outcome.error;
            var q := OnLoadError(page, oracle, size);
            && q.slot.phase == Failed
            && q.slot.error == Some(FailureMessage(f))
            && q.slot.binding == page.slot.binding
  {
  }

  /** An empty URL for the slot's size shows exactly the sentinel message, without a prefix. */
  lemma UnavailableShowsSentinel(store: Store, oracle: Oracle, query: Query, size: Dimensions)
    requires AttemptFor(store, oracle, query, size).outcome == Err(Unavailable)
    ensures Start(store, oracle, query, size).slot.error == Some("Image unavailable")
  {
  }
}

=== FILE: size_selection.dfy ===
/** Choosing which of the API's image variants to show in a slot of given dimensions. */
module SizeSelection {
  import opened Wrappers
  import opened Metadata

  /** The size tags last.fm uses for album images, smallest first. */
  datatype SizeLabel = Small | Medium | Large | ExtraLarge | Mega

  /** Position of a tag in the smallest-to-largest order. */
  function Rank(tag: SizeLabel): nat
  {
    match tag
    case Small => 0
    case Medium => 1
    case Large => 2
    case ExtraLarge => 3
    case Mega => 4
  }

  /** The `size` string the API writes for a tag. */
  function Name(tag: SizeLabel): string
  {
    match tag
    case Small => "small"
    case Medium => "medium"
    case Large => "large"
    case ExtraLarge => "extralarge"
    case Mega => "mega"
  }

  /** A slot whose larger dimension is `measure` pixels is served well by `tag`: the thresholds
      are three quarters of the nominal 34, 64, 174 and 300 pixel edges, and mega fits anything. */
  predicate Fits(measure: nat, tag: SizeLabel)
  {
    match tag
    case Small => measure <= 25
    case Medium => measure <= 48
    case Large => measure <= 130
    case ExtraLarge => measure <= 225
    case Mega => true
  }

  /** The rendered width and height of an `<img>` element when it is read. */
  datatype Dimensions = Dimensions(width: nat, height: nat)

  /** `Math.max(img.width, img.height)`. */
  function Measure(width: nat, height: nat): (m: nat)
    ensures width <= m && height <= m
    ensures m == width || m == height
  {
    if width < height then height else width
  }

  /** The if-chain choosing `target_size`: the smallest tag that fits the measure. */
  function LabelFor(measure: nat): (tag: SizeLabel)
    ensures Fits(measure, tag)
    ensures forall smaller :: Rank(smaller) < Rank(tag) ==> !Fits(measure, smaller)
  {
    if measure <= 25 then Small
    else if measure <= 48 then Medium
    else if measure <= 130 then Large
    else if measure <= 225 then ExtraLarge
    else Mega
  }

  /** Distinct labels have distinct names, so matching a variant's `size` picks out one tag. */
  lemma NameInjective(a: SizeLabel, b: SizeLabel)
    requires Name(a) == Name(b)
    ensures a == b
  {
  }

  /** A larger slot never gets a smaller tag. */
  lemma LabelForMonotone(m1: nat, m2: nat)
    requires m1 <= m2
    ensures Rank(LabelFor(m1)) <= Rank(LabelFor(m2))
  {
  }

  /** `Array.prototype.find` over the variants' sizes: the index of the first match. */
  function FindFirst(images: seq<Variant>, size: string): (r: Option<nat>)
    ensures r.Some? ==> r.value < |images| && images[r.value].size == size
    ensures r.Some? ==> forall j :: 0 <= j < r.value ==> images[j].size != size
    ensures r.None? ==> forall j :: 0 <= j < |images| ==> images[j].size != size
  {
    if |images| == 0 then None
    else if images[0].size == size then Some(0)
    else match FindFirst(images[1..], size)
      case None => None
      case Some(i) => Some(i + 1)
  }

  /** The index of the variant shown for `tag`: the first whose size is the tag's name,
      otherwise the last one. */
  function SelectIndex(images: seq<Variant>, tag: SizeLabel): (i: nat)
    requires |images| > 0
    ensures i < |images|
    ensures (exists j :: 0 <= j < |images| && images[j].size == Name(tag)) ==>
              images[i].size == Name(tag) && forall j :: 0 <= j < i ==> images[j].size != Name(tag)
    ensures (forall j :: 0 <= j < |images| ==> images[j].size != Name(tag)) ==> i == |images| - 1
  {
    match FindFirst(images, Name(tag))
    case Some(i) => i
    case None => |images| - 1
  }

  /** The variant `fetch_album_art` reads `#text` from. */
  function SelectVariant(images: seq<Variant>, tag: SizeLabel): (v: Variant)
    requires |images| > 0
    ensures v in images
  {
    images[SelectIndex(images, tag)]
  }
}

=== FILE: wrappers.dfy ===
/** Helper datatypes shared by the album-art model. */
module Wrappers {

  /** A value that may be absent (a missing localStorage entry, no matching variant). */
  datatype Option<+T> = None | Some(value: T)

  /** The outcome of an operation that either produces a value or fails with an error. */
  datatype Result<+T, +E> = Ok(value: T) | Err(error: E)
}
